=== FILE: README.md ===
# Timeline event filtering core, modelled in Dafny

This project models the filtering core of an Obsidian timeline plugin:
- the accessors that compute a timeline event's id, start and end time, sort key and date description, plus the strict boolean parser;
- the two-stage event filter: a `;`-separated tag whitelist with a `none` sentinel, then date-range intersection;
- what `searchTimelineEvents` does once the vault has been read: the query-range guard, and concatenating each accepted file's filtered events in map order;
- the expansion of a hierarchical tag such as `#hello/i/am` into itself and its ancestors;
- time-duration arithmetic: the unit table, conversion to minutes, and `add`.

Modules, one per source file, plus three helper modules:

| file | module | models |
|---|---|---|
| `wrappers.dfy` | `Wrappers` | `Option` for `undefined`/`null`, `Result` for thrown errors |
| `seqs.dfy` | `Seqs` | order-preserving `Array.prototype.filter`, and concatenation |
| `jsstring.dfy` | `JsString` | JavaScript truthiness of strings, `trim`, `split`, `lastIndexOf`, `n + ''` |
| `timeline_event.dfy` | `Events` | `src/type/timeline-event.ts` accessors |
| `filter_timeline_event.dfy` | `EventFilter` | `src/filter/filter-timeline-event.ts` |
| `search_timeline.dfy` | `Search` | `src/apis/search-timeline.ts` after extraction |
| `parse_parent_children_tag.dfy` | `ParentChildrenTag` | `src/apis/filter/parse-parent-children-tag.ts` |
| `time_duration_value.dfy` | `TimeDuration` | `src/data-value/time-duration-value.ts` |

Functions whose definitions are not part of this model become parameters of the members that call them. None of them is given a semantics:
- `parseTimelineDate` is `DateParser = Option<string> -> Option<int>`. `None` stands for `null`, `undefined` and `NaN`; a parsed 0 is `Some(0)`. The query guard of `searchTimelineEvents` tests `isNil`, so it compares a parsed 0 like any other number (`src/apis/search-timeline.ts:67`), while `getTimelineEventTime` reads `None` and `Some(0)` alike as 0.
- `hasTimeRangeIntersection` is `RangeIntersection`, a predicate over two `(start, end)` pairs of optional strings.
- `filterFileByTags`, with the metadata cache bound in, is `FileTagFilter`.
- The per-file result of reading and parsing a document is `EventExtractor`.

Behaviours a reader may not expect, as the code has them:
- An event's end time is `dateEnd` or nothing. There is no fallback to the start time (`src/type/timeline-event.ts:164-166`).
- `add` returns minutes, not seconds (`src/data-value/time-duration-value.ts:33-36`).
- Only a zero argument short-circuits `add`, not a zero receiver (`src/data-value/time-duration-value.ts:23`).
- A present but empty tag list does not match `none`. JavaScript treats `[]` as truthy (`src/filter/filter-timeline-event.ts:74`).

`eventTags` has two types in the source. The record declares it as a `;`-separated string (`src/type/timeline-event.ts:16`). The filter calls `.some` on it as a list (`src/filter/filter-timeline-event.ts:70`). The extraction copies the raw string into `eventTags` and puts the split list in `parsedEventTags` (`src/type/timeline-event.ts:249-253`). Taken literally, the filter would call `.some` on the raw string and throw a `TypeError` whenever a tag criterion is active and an event carries a tag string, even `""`. An event with no `eventTags` short-circuits to `undefined`, and `none` still selects it. The model describes the list the filter expects instead: `eventTags: Option<seq<string>>`.

`TimelineEvent` keeps only the fields the filtering core reads or that identify an event: `name`, `title`, `date`, `dateStart`, `dateEnd`, `dateDescription`, `eventTags` and `milestone`. It drops `class`, `dateId`, `img`, `value`, `unit`, `imgRealPath`, `innerHTML`, `parsedEventTags` and `file`. So two events from different files that agree on the kept fields are equal in the model, and the membership statements (`e in r`) do not tell them apart.

## Model

| member | source | states |
|---|---|---|
| `JsString.Trim` | src/apis/filter/parse-parent-children-tag.ts:8 | trimming yields the slice of the input that starts right after its leading whitespace and neither starts nor ends with ECMAScript whitespace; it is empty exactly when the input is all whitespace |
| `JsString.Split` | src/filter/filter-timeline-event.ts:62 | the split has at least one piece, and no piece holds the separator |
| `JsString.JoinSplit` | src/filter/filter-timeline-event.ts:62 | splitting on `;` loses nothing: joining the pieces gives the input back |
| `JsString.SplitAllEmpty` | src/filter/filter-timeline-event.ts:62 | every piece of a split is empty exactly when the input holds only separators |
| `JsString.NumberToString` | src/type/timeline-event.ts:101 | the rendering is non-empty, starts with `-` exactly for a negative number, and is digits after the first character |
| `JsString.LastIndexOf` | src/apis/filter/parse-parent-children-tag.ts:19 | the index is -1 or that of an occurrence of the character, and no occurrence follows it |
| `JsString.NumberRoundTrip` | src/type/timeline-event.ts:101 | the decimal rendering of an integral time reads back as the same number |
| `Events.EventTime` | src/type/timeline-event.ts:126-128 | a time is the parsed value; a failed parse reads as 0, and a non-zero time always comes from a successful parse |
| `Events.SortOrderAgreesWithStartTime` | src/type/timeline-event.ts:171-181 | with a non-empty `date` of non-zero time, the sort key is the time of the start time |
| `Events.SortOrderCanDivergeFromStartTime` | src/type/timeline-event.ts:171-181 | a non-empty `date` that does not parse is still the start time, yet the sort key is the time of `dateStart` |
| `Events.EventId` | src/type/timeline-event.ts:96-117 | a non-empty `date` wins and gives a point id; else both bounds give `start-end`; else `dateStart` alone gives a point id; there is no id exactly when the event is missing or has neither a `date` nor a `dateStart` |
| `Events.PointIdIsNotRangeId` | src/type/timeline-event.ts:99-114 | a point id never equals a range id |
| `Events.RangeIdInjective` | src/type/timeline-event.ts:104-109 | a range id determines both of its times, negative times included |
| `Events.EventIdDeterminesTimes` | src/type/timeline-event.ts:96-117 | two events with the same id have ids of the same kind, built from the same times |
| `Events.DateDescription` | src/type/timeline-event.ts:134-138 | a non-empty `dateDescription` is returned, else the event id; the result is absent exactly when there is no description, no `date` and no `dateStart`, and it is never an empty string |
| `Events.StartTime` | src/type/timeline-event.ts:157-159 | the start is `date` if non-empty, else `dateStart` if non-empty, else absent; it is never an empty string |
| `Events.ParsedRecord` | src/type/timeline-event.ts:248-260 | a built record keeps the start time, has a non-empty `date` exactly when it has a start time, and takes `dateStart` as its `date` when `date` is empty; its name is the original one when that was non-empty and `"unknown"` otherwise; every other field is kept |
| `Events.ParsedRecordIdempotent` | src/type/timeline-event.ts:248-260 | building a record from a built record changes nothing |
| `Events.ParsedRecordHasPointId` | src/type/timeline-event.ts:96-117 | a built record never takes the range branch: its id is the start time's value in decimal, or absent |
| `Events.StartTimeMatchesId` | src/type/timeline-event.ts:96-117 | an event has a start time exactly when it has an id; outside the range case the id is the start time's parsed value in decimal |
| `Events.EndTime` | src/type/timeline-event.ts:164-166 | the end is a non-empty `dateEnd` or absent, whatever the start fields hold |
| `Events.EndTimeIgnoresStart` | src/type/timeline-event.ts:164-166 | changing `date` or `dateStart` never changes the end time |
| `Events.SortOrder` | src/type/timeline-event.ts:171-181 | the sort key is -1 without an event; otherwise it is the time of `date`, or that of `dateStart` when the former is 0; a non-zero key comes from one of the two parses |
| `Events.SortOrderMatchesId` | src/type/timeline-event.ts:171-181 | for an event with a non-empty `date` whose time is non-zero, the id is the sort key in decimal |
| `Events.ParseBoolean` | src/type/timeline-event.ts:280-285 | the result is present exactly for a non-empty input, and it is true exactly for the input `"true"` |
| `Events.ParseBooleanRoundTrip` | src/type/timeline-event.ts:280-285 | the texts `"true"` and `"false"` read back as the booleans they name |
| `Seqs.Filter` | src/filter/filter-timeline-event.ts:68-80 | a filter keeps exactly the input elements that satisfy the predicate and drops nothing else |
| `Seqs.FilterIsSubsequence` | src/filter/filter-timeline-event.ts:93-101 | a filter's result is an order-preserving subsequence of its input |
| `Seqs.FilterCompose` | src/filter/filter-timeline-event.ts:38-47 | two filters in sequence equal one filter by the conjunction of their predicates |
| `Seqs.Flatten` | src/apis/search-timeline.ts:95-101 | a concatenation holds exactly the elements of its parts, and its length is the sum of theirs |
| `EventFilter.WhiteTags` | src/filter/filter-timeline-event.ts:62-65 | the whitelist holds exactly the non-empty `;`-segments; it is empty exactly when the criterion holds only separators |
| `EventFilter.SomeWhite` | src/filter/filter-timeline-event.ts:70 | `some` holds exactly when the tag list and the whitelist share an element |
| `EventFilter.FilterByEventTag` | src/filter/filter-timeline-event.ts:53-81 | the tag stage is a no-op without a non-empty segment; otherwise it keeps an item exactly when it shares a tag with the whitelist, or the whitelist names `none` and the item has no tag list; the result is a subsequence of the input |
| `EventFilter.NoneSentinel` | src/filter/filter-timeline-event.ts:74-77 | an item with no tag list passes exactly when the whitelist names `none`; a present empty list never passes |
| `EventFilter.FilterByTime` | src/filter/filter-timeline-event.ts:83-102 | the time stage keeps an item exactly when its start and end intersect the raw query bounds |
| `EventFilter.FilterTimelineEvents` | src/filter/filter-timeline-event.ts:29-48 | without criteria the input comes back unchanged; otherwise the result holds exactly the items that pass both active stages, as a subsequence of the input |
| `EventFilter.FilterStages` | src/filter/filter-timeline-event.ts:38-47 | with neither stage active the events come back unchanged; otherwise an event is kept exactly when it is in the input and passes both stages |
| `EventFilter.FilterIsConjunction` | src/filter/filter-timeline-event.ts:38-47 | running the optional stages one after the other equals one filter by the conjunction of the stage predicates |
| `EventFilter.FilterTwiceIsOnce` | src/filter/filter-timeline-event.ts:38-47 | filtering twice with the same criteria equals filtering once |
| `EventFilter.FilterKeepsMultiplicity` | src/filter/filter-timeline-event.ts:38-47 | a kept item occurs exactly as often as in the input, and a dropped one not at all |
| `EventFilter.SeparatorOnlyTagsAreIgnored` | src/filter/filter-timeline-event.ts:57-65 | a tag criterion made only of `;`, the empty string included, acts like no tag criterion |
| `Search.MapSet` | src/type/timeline-event.ts:264 | setting a new key appends the entry; every entry afterwards is an old one or the new one |
| `Search.MapSetInPlace` | src/type/timeline-event.ts:264 | setting a key already present replaces its entry in place; the entries before and after it are untouched |
| `Search.Lookup` | src/type/timeline-event.ts:264 | reading a key gives nothing exactly when no entry has that key |
| `Search.MapSetLookup` | src/type/timeline-event.ts:264 | after the set, the key reads as the new value and every other key reads as before |
| `Search.ExtractAll` | src/type/timeline-event.ts:211-267 | every map entry is the path and events of some file of the list |
| `Search.ExtractAllLookup` | src/type/timeline-event.ts:211-267 | the map has a key for every file's path and no other key, and each key holds the events of the last file with that path |
| `Search.ExtractAllDistinct` | src/type/timeline-event.ts:211-267 | when no two files share a path, the map holds exactly one entry per file, in file order |
| `Search.SearchTimelineEvents` | src/apis/search-timeline.ts:40-105 | an inverted query range gives no events; every result passes the event filter and comes from a file the tag filter accepts; with distinct paths, every such event of such a file is returned |
| `Search.CollectSound` | src/apis/search-timeline.ts:79-102 | every collected event passes the event filter and is an extracted event of an accepted file |
| `Search.CollectComplete` | src/apis/search-timeline.ts:79-102 | with distinct paths, every extracted event of an accepted file that passes the filter is collected |
| `Search.SearchIsConcatenation` | src/apis/search-timeline.ts:79-102 | with distinct paths and an accepted range, the result is each accepted file's filtered events, concatenated in vault order |
| `Search.RangeRejected` | src/apis/search-timeline.ts:65-67 | a rejected query has a start time later than its end time; a query whose bounds both parse and is not rejected has its start no later than its end |
| `Search.SearchYieldsPointIds` | src/apis/search-timeline.ts:58-104 | when the extractor yields built records, every search result has a point id or none |
| `Search.GuardIsStrict` | src/apis/search-timeline.ts:65-67 | equal bounds, or a bound that does not parse, never trip the range guard |
| `ParentChildrenTag.Parent` | src/apis/filter/parse-parent-children-tag.ts:19 | cutting at the last `/` gives a shorter prefix that ends just before a `/`, with no `/` after the cut |
| `ParentChildrenTag.ParseTag` | src/apis/filter/parse-parent-children-tag.ts:7-22 | a tag that is empty after trimming leaves the list unchanged; otherwise the expansion of the trimmed tag is appended; the old entries are kept, and 1 + (number of `/`) entries are added |
| `ParentChildrenTag.AppendExpansion` | src/apis/filter/parse-parent-children-tag.ts:17-21 | the push loop appends exactly the expansion of the tag to the list |
| `ParentChildrenTag.ExpansionLength` | src/apis/filter/parse-parent-children-tag.ts:17-21 | the expansion has one entry for the tag plus one per `/` |
| `ParentChildrenTag.ExpansionSteps` | src/apis/filter/parse-parent-children-tag.ts:18-21 | each entry after the first is the previous one cut at its last `/`, and the last entry has no `/` |
| `ParentChildrenTag.ExpansionPrefixes` | src/apis/filter/parse-parent-children-tag.ts:18-20 | every entry is a prefix of the tag, and the entries get strictly shorter |
| `ParentChildrenTag.ExpansionMembers` | src/apis/filter/parse-parent-children-tag.ts:15-21 | the entries are exactly the tag and its prefixes that end just before a `/` |
| `ParentChildrenTag.ExpansionExample` | src/apis/filter/parse-parent-children-tag.ts:1-4 | `#hello/i/am` expands to `#hello/i/am`, `#hello/i`, `#hello` |
| `TimeDuration.IsTimeDurationUnit` | src/data-value/time-duration-value.ts:14-16 | a string is a unit exactly when it is the string value of one of the enum's members |
| `TimeDuration.ParseUnit` | src/data-value/time-duration-value.ts:3-16 | a string names a unit exactly when `isTimeDurationUnit` holds, and then it is that unit's enum value |
| `TimeDuration.UnitNameRoundTrip` | src/data-value/time-duration-value.ts:3-11 | every enum value is a unit string, and reading it back gives the same unit |
| `TimeDuration.GetFactor` | src/data-value/time-duration-value.ts:58-76 | the seven unit strings have factors, and any other string is an unknown-unit error |
| `TimeDuration.FactorTable` | src/data-value/time-duration-value.ts:58-73 | the factors are sec 1, min 60, h 3600, d 86400, w 604800, mo 2592000, yr 31536000, strictly increasing |
| `TimeDuration.ToMinutes` | src/data-value/time-duration-value.ts:45-53 | the result is in `min` and its length in seconds equals the input's; a minute value is unchanged; an unknown unit is an error |
| `TimeDuration.Add` | src/data-value/time-duration-value.ts:22-42 | a zero argument returns the receiver even if it is not a duration; a non-zero argument of another kind is a type mismatch; two durations with known units sum in `min`, and the sum in seconds equals the sum of their lengths |
| `TimeDuration.AddCommutesInMagnitude` | src/data-value/time-duration-value.ts:28-36 | adding two non-zero durations gives the same result in either order |
| `TimeDuration.ZeroReceiverIsNotShortCut` | src/data-value/time-duration-value.ts:22-25 | a zero receiver still converts: 0 h plus 2 h is 120 min |
| `TimeDuration.AddExample` | src/data-value/time-duration-value.ts:28-36 | 5 min plus 30 sec is 5.5 min, that is 330 seconds |
| `TimeDuration.ZeroOfOtherKindIsAbsorbed` | src/data-value/time-duration-value.ts:22-41 | a zero distance added to a duration returns the duration; a non-zero one fails |

## Left out

- `parseTimelineDate`, `hasTimeRangeIntersection` and `filterFileByTags` are parameters with no semantics, because `src/type/time` and `src/filter`'s file filter are not part of this model. So date ordering, era handling and the range-overlap rules are not stated.
- Reading the vault, `DOMParser` and `getImgUrl` are left out, because they are I/O or DOM work. `getTimelineEventInFile` also builds each record with five pure steps:
  - `eventTags` is split on `;` into `parsedEventTags`, keeping empty segments, and a missing or empty attribute gives a present `[]` (`src/type/timeline-event.ts:230-238`). The model's `eventTags` is already that list, so this split is not modelled. A missing attribute is `None` in the model, where the code's `parsedEventTags` would be `[]`.
  - an empty `date` is replaced by `dateStart` (:250);
  - an empty `name` becomes `'unknown'` (:257);
  - `value` is coerced with `parseValue`, which is `Number()` with a `NaN` check (:258, :270-278). It is not modelled, because the model's record has no `value` field and the filtering core never reads it.
  - `milestone` is parsed with `parseBoolean` (:259).

  `Events.ParsedRecord` models the `date` and `name` steps. The model's record already holds `milestone` as a boolean, so the `parseBoolean` step is `Events.ParseBoolean`, applied before the record is built.
- The `EventExtractor` parameter is not constrained to return built records. So the search statements also cover records the real extraction never produces. On the real path, every event with a non-empty `dateStart` has a non-empty `date`, and the range branch of `EventId` and the `dateStart` branch of `StartTime` are never reached. `Search.SearchYieldsPointIds` states this for extractors that do return built records.
- `getTimelineEventImagePath` and `getTimelineEventSourcePath` are left out. They only read `imgRealPath` and `file.path`, which the filtering core never uses.
- The `searchTimelineEvents` logging, its dead `!fileList` branch and its unused `eventWhiteTags` set are left out, because none of them affects the result.
- `JsString.NumberToString` renders integers only. Integers beyond 2^53, which a JavaScript number cannot hold exactly and renders by shortest round-trip digits, are not modelled. Nor are JavaScript's exponent notation at 1e21 and above, `-0` and `NaN`, because the date parser is modelled as returning an integer or nothing.
- Strings are sequences of Unicode scalar values, not UTF-16 code units. The core compares strings, cuts them at `/` and `;`, and trims them. Every character `trim` removes is a single UTF-16 code unit, so the two views agree on all of these.
- Duration magnitudes are exact reals. IEEE-754 rounding in `value * factor / 60` and in the sum is not modelled.
- `getFactor`'s unused `toUnit` parameter and the text of the thrown messages are left out. The errors are the constructors of `DurationError`.
- `BaseValue` and `DistanceValue` are not part of this model. A value of another kind is `Other(value, unit)`.
- Search.SearchTimelineEvents: completeness is stated only for vaults whose file paths are distinct, which vault paths are. With a repeated path, `Map.set` keeps the first position and the last file's events. `Search.MapSetInPlace` and `Search.ExtractAllLookup` state this for the map, but the resulting event order is not stated for the search.
- Search.SearchIsConcatenation: stated only for distinct file paths, for the same reason.
- The boolean tag expressions mentioned in the parameter comments (`tag1 && (tag2 || tag3)`) are not modelled, because `filterByEventTag` does not implement them.
- A parent-annotated variant of tag expansion is not modelled, because this source has none.
- The user-interface files (event-tag view, value-unit suggestion) and the moment-based `getTimelineEventMomentTime` under test are not part of this model.

=== FILE: filter_timeline_event.dfy ===
/** Narrowing a sequence of timeline events, first by a `;`-separated tag
    whitelist, then by intersection with a date range. Both stages are
    optional and keep the order of the events they let through. */
module EventFilter {
  import opened Wrappers
  import opened JsString
  import opened Seqs
  import opened Events

  /** The filter criteria; each one is optional. */
  datatype FilterParams = FilterParams(
    eventTags: Option<string>,
    dateStart: Option<string>,
    dateEnd: Option<string>)

  /** A date range `[start, end]`; an absent bound leaves that side open. */
  type DateRange = (Option<string>, Option<string>)

  /** `hasTimeRangeIntersection(eventRange, queryRange)`. Its definition is not
      part of this model, so the time stage takes it as a parameter. */
  type RangeIntersection = (DateRange, DateRange) -> bool

  /** The whitelist: the non-empty `;`-separated segments of `eventTags`. It is
      empty exactly when `eventTags` holds nothing but separators. */
  function WhiteTags(eventTags: string): (white: seq<string>)
    ensures forall t :: t in white <==> t != "" && t in Split(eventTags, ';')
    ensures forall t :: t in white ==> t != "" && ';' !in t
    ensures |white| == 0 <==> forall k :: 0 <= k < |eventTags| ==> eventTags[k] == ';'
  {
    var parts := Split(eventTags, ';');
    SplitAllEmpty(eventTags, ';');
    var white := Filter(parts, (t: string) => t != "");
    assert |white| == 0 <==> forall i :: 0 <= i < |parts| ==> parts[i] == "" by {
      if |white| > 0 {
        assert white[0] in parts;
      }
      if exists i :: 0 <= i < |parts| && parts[i] != "" {
        var i :| 0 <= i < |parts| && parts[i] != "";
        assert parts[i] in white;
      }
    }
    white
  }

  /** `tags.some(tag => white.has(tag))`. */
  function SomeWhite(tags: seq<string>, white: seq<string>): (b: bool)
    ensures b <==> exists t :: t in tags && t in white
    decreases |tags|
  {
    if |tags| == 0 then false
    else tags[0] in white || SomeWhite(tags[1..], white)
  }

  /** The tag stage is active when `eventTags` is non-empty and has at least
      one non-empty segment. */
  predicate TagStageActive(p: FilterParams) {
    Truthy(p.eventTags) && |WhiteTags(p.eventTags.value)| > 0
  }

  /** An item survives an active tag stage when one of its tags is
      whitelisted, or when the whitelist names `none` and the item has no tag
      list at all (a present but empty list is not "no tags"). */
  predicate PassesTagStage(p: FilterParams, e: TimelineEvent) {
    TagStageActive(p) ==>
      var white := WhiteTags(p.eventTags.value);
      || (e.eventTags.Some? && exists t :: t in e.eventTags.value && t in white)
      || ("none" in white && e.eventTags.None?)
  }

  /** `filterByEventTag`. */
  function FilterByEventTag(events: seq<TimelineEvent>, params: Option<FilterParams>): (r: seq<TimelineEvent>)
    ensures params.None? || !TagStageActive(params.value) ==> r == events
    ensures params.Some? ==> forall e :: e in r <==> e in events && PassesTagStage(params.value, e)
    ensures IsSubsequence(r, events)
  {
    if params.None? || !Truthy(params.value.eventTags) then
      IsSubsequenceRefl(events);
      events
    else
      var white := WhiteTags(params.value.eventTags.value);
      if |white| == 0 then
        IsSubsequenceRefl(events);
        events
      else
        var keep := (item: TimelineEvent) =>
          || (item.eventTags.Some? && SomeWhite(item.eventTags.value, white))
          || ("none" in white && item.eventTags.None?);
        FilterIsSubsequence(events, keep);
        Filter(events, keep)
  }

  /** The range an event covers: its start time and its end time. */
  function EventRange(e: TimelineEvent): DateRange {
    (StartTime(Some(e)), EndTime(Some(e)))
  }

  /** The time stage is active when either query bound is non-empty. */
  predicate TimeStageActive(p: FilterParams) {
    Truthy(p.dateStart) || Truthy(p.dateEnd)
  }

  /** An item survives an active time stage when its range intersects the
      query range built from the raw bounds. */
  predicate PassesTimeStage(p: FilterParams, intersects: RangeIntersection, e: TimelineEvent) {
    TimeStageActive(p) ==> intersects(EventRange(e), (p.dateStart, p.dateEnd))
  }

  /** `filterByTime`. */
  function FilterByTime(events: seq<TimelineEvent>, params: Option<FilterParams>, intersects: RangeIntersection)
    : (r: seq<TimelineEvent>)
    ensures params.None? ==> r == events
    ensures params.Some? ==> forall e :: e in r <==> e in events && intersects(EventRange(e), (params.value.dateStart, params.value.dateEnd))
    ensures IsSubsequence(r, events)
  {
    match params
    case None =>
      IsSubsequenceRefl(events);
      events
    case Some(p) =>
      var keep := (item: TimelineEvent) => intersects(EventRange(item), (p.dateStart, p.dateEnd));
      FilterIsSubsequence(events, keep);
      Filter(events, keep)
  }

  /** Whether an item survives both stages. */
  predicate Keep(p: FilterParams, intersects: RangeIntersection, e: TimelineEvent) {
    PassesTagStage(p, e) && PassesTimeStage(p, intersects, e)
  }

  /** `filterTimelineEvents`: without criteria the input comes back as is;
      otherwise exactly the items that pass both stages, in input order. */
  function FilterTimelineEvents(events: seq<TimelineEvent>, params: Option<FilterParams>, intersects: RangeIntersection)
    : (r: seq<TimelineEvent>)
    ensures params.None? ==> r == events
    ensures params.Some? ==> forall e :: e in r <==> e in events && Keep(params.value, intersects, e)
    ensures IsSubsequence(r, events)
  {
    match params
    case None =>
      IsSubsequenceRefl(events);
      events
    case Some(p) =>
      FilterIsConjunction(events, p, intersects);
      FilterIsSubsequence(events, e => Keep(p, intersects, e));
      FilterStages(events, p, intersects)
  }

  /** The two stages of `filterTimelineEvents`, each run only when its
      criterion is given. */
  function FilterStages(events: seq<TimelineEvent>, p: FilterParams, intersects: RangeIntersection): (r: seq<TimelineEvent>)
    ensures !TagStageActive(p) && !TimeStageActive(p) ==> r == events
    ensures forall e :: e in r <==> e in events && Keep(p, intersects, e)
  {
    var afterTags := if Truthy(p.eventTags) then FilterByEventTag(events, Some(p)) else events;
    if TimeStageActive(p) then FilterByTime(afterTags, Some(p), intersects) else afterTags
  }

  /** The two stages together are one filter by the conjunction of the stage
      predicates. */
  lemma {:induction false} FilterIsConjunction(events: seq<TimelineEvent>, p: FilterParams, intersects: RangeIntersection)
    ensures FilterStages(events, p, intersects) == Filter(events, e => Keep(p, intersects, e))
  {
    var tagKeep := (e: TimelineEvent) => PassesTagStage(p, e);
    var timeKeep := (e: TimelineEvent) => PassesTimeStage(p, intersects, e);
    var afterTags := if Truthy(p.eventTags) then FilterByEventTag(events, Some(p)) else events;
    assert afterTags == Filter(events, tagKeep) by {
      if TagStageActive(p) {
        var white := WhiteTags(p.eventTags.value);
        var keep := (item: TimelineEvent) =>
          || (item.eventTags.Some? && SomeWhite(item.eventTags.value, white))
          || ("none" in white && item.eventTags.None?);
        FilterExtensional(events, keep, tagKeep);
      } else {
        FilterKeepsAll(events, tagKeep);
      }
    }
    var r := FilterStages(events, p, intersects);
    assert r == Filter(afterTags, timeKeep) by {
      if TimeStageActive(p) {
        var keep := (item: TimelineEvent) => intersects(EventRange(item), (p.dateStart, p.dateEnd));
        FilterExtensional(afterTags, keep, timeKeep);
      } else {
        FilterKeepsAll(afterTags, timeKeep);
      }
    }
    FilterCompose(events, tagKeep, timeKeep, e => Keep(p, intersects, e));
  }

  /** Filtering an already filtered sequence with the same criteria changes
      nothing. */
  lemma {:induction false} FilterTwiceIsOnce(events: seq<TimelineEvent>, params: Option<FilterParams>, intersects: RangeIntersection)
    ensures FilterTimelineEvents(FilterTimelineEvents(events, params, intersects), params, intersects)
            == FilterTimelineEvents(events, params, intersects)
  {
    if params.Some? {
      var p := params.value;
      var once := FilterTimelineEvents(events, params, intersects);
      FilterIsConjunction(events, p, intersects);
      FilterIsConjunction(once, p, intersects);
      FilterIdempotent(events, e => Keep(p, intersects, e));
    }
  }

  /** No item is invented or duplicated: a kept item occurs exactly as often
      as in the input. */
  lemma {:induction false} FilterKeepsMultiplicity(events: seq<TimelineEvent>, p: FilterParams, intersects: RangeIntersection)
    ensures forall e :: multiset(FilterTimelineEvents(events, Some(p), intersects))[e]
                        == if Keep(p, intersects, e) then multiset(events)[e] else 0
  {
    FilterIsConjunction(events, p, intersects);
    FilterMultiplicity(events, e => Keep(p, intersects, e));
  }

  /** A tag criterion made of separators only (the empty string included) has
      the same effect as no tag criterion. */
  lemma {:induction false} SeparatorOnlyTagsAreIgnored(events: seq<TimelineEvent>, p: FilterParams, intersects: RangeIntersection)
    requires p.eventTags.Some?
    requires forall k :: 0 <= k < |p.eventTags.value| ==> p.eventTags.value[k] == ';'
    ensures FilterTimelineEvents(events, Some(p), intersects)
            == FilterTimelineEvents(events, Some(p.(eventTags := None)), intersects)
  {
  }

  /** The `none` sentinel selects items without a tag list, and only those: an
      item whose tag list is present but empty never passes an active tag
      stage. */
  lemma NoneSentinel(p: FilterParams, e: TimelineEvent)
    requires TagStageActive(p)
    ensures e.eventTags.None? ==> (PassesTagStage(p, e) <==> "none" in WhiteTags(p.eventTags.value))
    ensures e.eventTags == Some([]) ==> !PassesTagStage(p, e)
  {
  }
}

=== FILE: jsstring.dfy ===
/** The JavaScript string semantics the core relies on: truthiness of an
    optional string, `trim`, `split`, `lastIndexOf`, and the decimal rendering
    of an integral number by `n + ''`. */
module JsString {
  import opened Wrappers

  /** JavaScript truthiness of an optional string: present and not empty. */
  predicate Truthy(s: Option<string>) {
    s.Some? && s.value != ""
  }

  /** The characters `String.prototype.trim` removes: the ECMAScript
      WhiteSpace and LineTerminator code points. */
  predicate IsJsWhitespace(c: char) {
    c in {'\t', '\n', '\U{000B}', '\U{000C}', '\r', ' ', '\U{00A0}', '\U{1680}',
          '\U{2000}', '\U{2001}', '\U{2002}', '\U{2003}', '\U{2004}', '\U{2005}',
          '\U{2006}', '\U{2007}', '\U{2008}', '\U{2009}', '\U{200A}',
          '\U{2028}', '\U{2029}', '\U{202F}', '\U{205F}', '\U{3000}', '\U{FEFF}'}
  }

  /** The number of whitespace characters `s` starts with. */
  function LeadingWhitespace(s: string): (n: nat)
    ensures n <= |s|
    ensures forall k :: 0 <= k < n ==> IsJsWhitespace(s[k])
    ensures n < |s| ==> !IsJsWhitespace(s[n])
    decreases |s|
  {
    if |s| > 0 && IsJsWhitespace(s[0]) then 1 + LeadingWhitespace(s[1..]) else 0
  }

  /** The position where the whitespace `s` ends with begins. */
  function TrailingWhitespaceStart(s: string): (n: nat)
    ensures n <= |s|
    ensures forall k :: n <= k < |s| ==> IsJsWhitespace(s[k])
    ensures n > 0 ==> !IsJsWhitespace(s[n - 1])
    decreases |s|
  {
    if |s| > 0 && IsJsWhitespace(s[|s| - 1]) then TrailingWhitespaceStart(s[..|s| - 1]) else |s|
  }

  /** `String.prototype.trim`: the slice of `s` that starts right after its
      leading whitespace, is followed by whitespace only, and neither starts
      nor ends with whitespace; it is empty exactly when `s` is all
      whitespace. */
  function Trim(s: string): (r: string)
    ensures LeadingWhitespace(s) + |r| <= |s|
    ensures r == s[LeadingWhitespace(s)..LeadingWhitespace(s) + |r|]
    ensures forall k :: LeadingWhitespace(s) + |r| <= k < |s| ==> IsJsWhitespace(s[k])
    ensures |r| > 0 ==> !IsJsWhitespace(r[0]) && !IsJsWhitespace(r[|r| - 1])
    ensures r == "" <==> forall k :: 0 <= k < |s| ==> IsJsWhitespace(s[k])
  {
    var lead := LeadingWhitespace(s);
    var rest := s[lead..];
    var len := TrailingWhitespaceStart(rest);
    var r := s[lead..lead + len];
    assert r == rest[..len];
    assert forall k :: lead + len <= k < |s| ==> s[k] == rest[k - lead];
    r
  }

  /** `s.split(sep)` with a one-character separator: the pieces between
      separators, in order; the empty string splits into one empty piece. */
  function Split(s: string, sep: char): (parts: seq<string>)
    ensures |parts| >= 1
    ensures forall i :: 0 <= i < |parts| ==> sep !in parts[i]
    decreases |s|
  {
    if |s| == 0 then [""]
    else
      var rest := Split(s[1..], sep);
      if s[0] == sep then [""] + rest
      else [[s[0]] + rest[0]] + rest[1..]
  }

  /** `parts.join(sep)`, the inverse of `Split`. */
  function Join(parts: seq<string>, sep: char): string
    decreases |parts|
  {
    if |parts| == 0 then ""
    else if |parts| == 1 then parts[0]
    else parts[0] + [sep] + Join(parts[1..], sep)
  }

  /** Splitting loses nothing: joining the pieces back gives the input. */
  lemma {:induction false} JoinSplit(s: string, sep: char)
    ensures Join(Split(s, sep), sep) == s
    decreases |s|
  {
    if |s| > 0 {
      var rest := Split(s[1..], sep);
      JoinSplit(s[1..], sep);
      var parts := Split(s, sep);
      if s[0] == sep {
        assert parts[1..] == rest;
      } else if |rest| == 1 {
        assert parts == [[s[0]] + rest[0]];
      } else {
        assert parts[1..] == rest[1..];
        assert Join(rest, sep) == rest[0] + [sep] + Join(rest[1..], sep);
      }
    }
  }

  /** Every piece of a split is empty exactly when the input consists of
      separators only (the empty string included). */
  lemma {:induction false} SplitAllEmpty(s: string, sep: char)
    ensures (forall i :: 0 <= i < |Split(s, sep)| ==> Split(s, sep)[i] == "")
            <==> (forall k :: 0 <= k < |s| ==> s[k] == sep)
    decreases |s|
  {
    if |s| > 0 {
      SplitAllEmpty(s[1..], sep);
      var rest := Split(s[1..], sep);
      var parts := Split(s, sep);
      if s[0] == sep {
        assert parts[1..] == rest;
        assert forall k :: 1 <= k < |s| ==> s[k] == s[1..][k - 1];
      } else {
        assert parts[0] != "";
      }
    }
  }

  /** Position of the last `c` in `s`, or -1 (`String.prototype.lastIndexOf`). */
  function LastIndexOf(s: string, c: char): (r: int)
    ensures -1 <= r < |s|
    ensures r >= 0 ==> s[r] == c
    ensures forall j :: r < j < |s| ==> s[j] != c
    decreases |s|
  {
    if |s| == 0 then -1
    else if s[|s| - 1] == c then |s| - 1
    else LastIndexOf(s[..|s| - 1], c)
  }

  /** Number of occurrences of `c` in `s`. */
  function CountChar(s: string, c: char): nat
    decreases |s|
  {
    if |s| == 0 then 0 else (if s[0] == c then 1 else 0) + CountChar(s[1..], c)
  }

  lemma {:induction false} CountCharAppend(a: string, b: string, c: char)
    ensures CountChar(a + b, c) == CountChar(a, c) + CountChar(b, c)
    decreases |a|
  {
    if |a| == 0 {
      assert a + b == b;
    } else {
      assert (a + b)[0] == a[0];
      assert (a + b)[1..] == a[1..] + b;
      CountCharAppend(a[1..], b, c);
    }
  }

  lemma {:induction false} CountCharZero(s: string, c: char)
    ensures CountChar(s, c) == 0 <==> c !in s
    decreases |s|
  {
    if |s| > 0 {
      CountCharZero(s[1..], c);
      assert s == [s[0]] + s[1..];
    }
  }

  /** The decimal digit character for `d`. */
  function DigitChar(d: nat): (c: char)
    requires d < 10
    ensures '0' <= c <= '9'
  {
    ('0' as int + d) as char
  }

  predicate IsDigit(c: char) {
    '0' <= c <= '9'
  }

  /** The shortest decimal rendering of `n`: digits only, no leading zero. */
  function NatToDecimal(n: nat): (r: string)
    ensures |r| >= 1
    ensures forall i :: 0 <= i < |r| ==> IsDigit(r[i])
    ensures |r| > 1 ==> r[0] != '0'
    decreases n
  {
    if n < 10 then [DigitChar(n)] else NatToDecimal(n / 10) + [DigitChar(n % 10)]
  }

  /** The number a string of decimal digits denotes. */
  function DecimalValue(s: string): nat
    requires forall i :: 0 <= i < |s| ==> IsDigit(s[i])
    decreases |s|
  {
    if |s| == 0 then 0
    else
      assert IsDigit(s[|s| - 1]);
      DecimalValue(s[..|s| - 1]) * 10 + (s[|s| - 1] as int - '0' as int)
  }

  /** Reading back a rendered natural gives the natural. */
  lemma {:induction false} DecimalRoundTrip(n: nat)
    ensures DecimalValue(NatToDecimal(n)) == n
    decreases n
  {
    if n >= 10 {
      DecimalRoundTrip(n / 10);
      var r := NatToDecimal(n);
      assert r[..|r| - 1] == NatToDecimal(n / 10);
    }
  }

  /** `n + ''` for an integral JavaScript number: an optional minus sign
      followed by the decimal digits of the magnitude. */
  function NumberToString(n: int): (r: string)
    ensures |r| >= 1
    ensures r[0] == '-' <==> n < 0
    ensures forall i :: 1 <= i < |r| ==> IsDigit(r[i])
  {
    if n < 0 then "-" + NatToDecimal(-n) else NatToDecimal(n)
  }

  /** Reads back a string produced by `NumberToString`. */
  function ParseNumber(s: string): Option<int>
  {
    if |s| > 1 && s[0] == '-' && forall i :: 1 <= i < |s| ==> IsDigit(s[i]) then
      var magnitude: int := DecimalValue(s[1..]);
      Some(-magnitude)
    else if |s| > 0 && forall i :: 0 <= i < |s| ==> IsDigit(s[i]) then
      Some(DecimalValue(s))
    else None
  }

  /** Rendering then parsing gives the number back, so distinct numbers
      render to distinct strings. */
  lemma NumberRoundTrip(n: int)
    ensures ParseNumber(NumberToString(n)) == Some(n)
  {
    var r := NumberToString(n);
    if n < 0 {
      DecimalRoundTrip(-n);
      assert r[1..] == NatToDecimal(-n);
    } else {
      DecimalRoundTrip(n);
    }
  }

  lemma NumberToStringInjective(a: int, b: int)
    ensures NumberToString(a) == NumberToString(b) ==> a == b
  {
    NumberRoundTrip(a);
    NumberRoundTrip(b);
  }
}

=== FILE: parse_parent_children_tag.dfy ===
/** Expansion of a hierarchical tag into itself and all its ancestors:
    `#hello/i/am` gives `#hello/i/am`, `#hello/i`, `#hello`. */
module ParentChildrenTag {
  import opened JsString

  /** A tag cut at its last '/'. */
  function Parent(t: string): (r: string)
    requires '/' in t
    ensures |r| < |t| && r == t[..|r|] && t[|r|] == '/'
    ensures '/' !in t[|r| + 1..]
  {
    t[..LastIndexOf(t, '/')]
  }

  /** The entries `parseTag` appends for a non-empty trimmed tag `t`: `t`
      itself, then each ancestor obtained by cutting at the last '/'. */
  function Expansion(t: string): (r: seq<string>)
    ensures |r| >= 1 && r[0] == t
    decreases |t|
  {
    if '/' in t then [t] + Expansion(Parent(t)) else [t]
  }

  /** `parseTag(tag, tagList)`: trims `tag`, ignores it when nothing is left,
      and otherwise appends its expansion to `tagList`. The list is only ever
      appended to, by one entry plus one per '/' in the trimmed tag. */
  method ParseTag(tag: string, tagList: seq<string>) returns (result: seq<string>)
    ensures Trim(tag) == "" ==> result == tagList
    ensures Trim(tag) != "" ==> result == tagList + Expansion(Trim(tag))
    ensures |result| == |tagList| + (if Trim(tag) == "" then 0 else 1 + CountChar(Trim(tag), '/'))
    ensures result[..|tagList|] == tagList
  {
    var t := Trim(tag);
    if |t| == 0 {
      return tagList;
    }
    ExpansionLength(t);
    result := AppendExpansion(t, tagList);
    assert result[..|tagList|] == tagList;
  }

  /** The loop of `parseTag`: push the tag, then keep cutting it at its last
      '/' and pushing the cut, until no '/' is left. */
  method AppendExpansion(tag: string, tagList: seq<string>) returns (result: seq<string>)
    ensures result == tagList + Expansion(tag)
  {
    var t := tag;
    result := tagList + [t];
    while '/' in t
      invariant result + Expansion(t)[1..] == tagList + Expansion(tag)
      decreases |t|
    {
      var parent := Parent(t);
      assert Expansion(t)[1..] == Expansion(parent);
      assert Expansion(parent)[1..] == Expansion(t)[2..];
      t := parent;
      result := result + [t];
    }
  }

  /** One entry for the tag and one per '/' in it. */
  lemma {:induction false} ExpansionLength(t: string)
    ensures |Expansion(t)| == 1 + CountChar(t, '/')
    decreases |t|
  {
    if '/' in t {
      var p := Parent(t);
      ExpansionLength(p);
      assert t == p + t[|p|..];
      CountCharAppend(p, t[|p|..], '/');
      assert t[|p|..] == ['/'] + t[|p| + 1..];
      CountCharZero(t[|p| + 1..], '/');
    } else {
      CountCharZero(t, '/');
    }
  }

  /** Each entry after the first is the previous one cut at its last '/', and
      the last entry contains no '/'. */
  lemma {:induction false} ExpansionSteps(t: string)
    ensures forall i :: 0 <= i < |Expansion(t)| - 1 ==>
              '/' in Expansion(t)[i] && Expansion(t)[i + 1] == Parent(Expansion(t)[i])
    ensures '/' !in Expansion(t)[|Expansion(t)| - 1]
    decreases |t|
  {
    if '/' in t {
      ExpansionSteps(Parent(t));
    }
  }

  /** Every entry is a prefix of the tag, and the entries get strictly
      shorter. */
  lemma {:induction false} ExpansionPrefixes(t: string)
    ensures forall i :: 0 <= i < |Expansion(t)| ==>
              |Expansion(t)[i]| <= |t| && Expansion(t)[i] == t[..|Expansion(t)[i]|]
    ensures forall i, j :: 0 <= i < j < |Expansion(t)| ==> |Expansion(t)[i]| > |Expansion(t)[j]|
    decreases |t|
  {
    if '/' in t {
      var p := Parent(t);
      ExpansionPrefixes(p);
      var r := Expansion(t);
      assert r[1..] == Expansion(p);
      forall i | 1 <= i < |r|
        ensures |r[i]| <= |t| && r[i] == t[..|r[i]|]
      {
        assert r[i] == Expansion(p)[i - 1];
      }
    }
  }

  /** The entries are exactly the tag and its prefixes that stop just before
      a '/'. */
  lemma {:induction false} ExpansionMembers(t: string)
    ensures forall a :: a in Expansion(t) <==>
              a == t || exists k :: 0 <= k < |t| && t[k] == '/' && a == t[..k]
    decreases |t|
  {
    if '/' in t {
      var p := Parent(t);
      ExpansionMembers(p);
      forall a
        ensures a in Expansion(t) <==> a == t || exists k :: 0 <= k < |t| && t[k] == '/' && a == t[..k]
      {
        if a in Expansion(p) {
          if a != p {
            var k :| 0 <= k < |p| && p[k] == '/' && a == p[..k];
            assert t[k] == '/' && a == t[..k];
          }
        }
        if exists k :: 0 <= k < |t| && t[k] == '/' && a == t[..k] {
          var k :| 0 <= k < |t| && t[k] == '/' && a == t[..k];
          if k < |p| {
            assert p[k] == '/' && a == p[..k];
          } else if k > |p| {
            assert false;
          }
        }
      }
    }
  }

  /** The example the source documents. */
  lemma ExpansionExample()
    ensures Expansion("#hello/i/am") == ["#hello/i/am", "#hello/i", "#hello"]
  {
    assert Parent("#hello/i/am") == "#hello/i";
    assert Parent("#hello/i") == "#hello";
    assert '/' !in "#hello";
  }
}

=== FILE: search_timeline.dfy ===
/** What `searchTimelineEvents` does once the vault has been read: the
    query-range guard and the concatenation of each matching file's filtered
    events. Reading files, parsing their markup and logging are outside this
    model; they enter as parameters. */
module Search {
  import opened Wrappers
  import opened Seqs
  import opened Events
  import opened EventFilter

  /** A document of the vault. */
  datatype VaultFile = VaultFile(path: string, content: string)

  /** The search criteria: a document-level tag expression plus the event
      filter criteria. */
  datatype SearchParams = SearchParams(
    tags: Option<string>,
    eventTags: Option<string>,
    dateStart: Option<string>,
    dateEnd: Option<string>)

  /** `filterFileByTags(file, fileCache, tags)`, with the metadata cache bound
      in. Its definition is not part of this model. */
  type FileTagFilter = (VaultFile, Option<string>) -> bool

  /** The events the markup of one file holds, as `getTimelineEventInFile`
      finds them. Reading and parsing the file are not part of this model. */
  type EventExtractor = VaultFile -> seq<TimelineEvent>

  /** A JavaScript `Map` from file path to events, as its entries in insertion
      order. */
  type EventMap = seq<(string, seq<TimelineEvent>)>

  /** No two files share a path. */
  ghost predicate DistinctPaths(files: seq<VaultFile>) {
    forall i, j :: 0 <= i < j < |files| ==> files[i].path != files[j].path
  }

  /** `map.set(key, value)`: a key already present keeps its position and
      takes the new value; a new key is appended at the end. */
  function MapSet(m: EventMap, key: string, value: seq<TimelineEvent>): (r: EventMap)
    ensures forall i :: 0 <= i < |r| ==> r[i] in m || r[i] == (key, value)
    ensures (forall i :: 0 <= i < |m| ==> m[i].0 != key) ==> r == m + [(key, value)]
    decreases |m|
  {
    if |m| == 0 then [(key, value)]
    else if m[0].0 == key then [(key, value)] + m[1..]
    else [m[0]] + MapSet(m[1..], key, value)
  }

  /** `map.get(key)`: the value of the entry with that key, if any. */
  function Lookup(m: EventMap, key: string): (r: Option<seq<TimelineEvent>>)
    ensures r.None? <==> forall i :: 0 <= i < |m| ==> m[i].0 != key
    decreases |m|
  {
    if |m| == 0 then None
    else if m[0].0 == key then Some(m[0].1)
    else Lookup(m[1..], key)
  }

  /** After `map.set(key, value)`, `key` reads as `value` and every other key
      reads as before. */
  lemma {:induction false} MapSetLookup(m: EventMap, key: string, value: seq<TimelineEvent>, k: string)
    ensures Lookup(MapSet(m, key, value), k) == if k == key then Some(value) else Lookup(m, k)
    decreases |m|
  {
    if |m| > 0 && m[0].0 != key {
      MapSetLookup(m[1..], key, value, k);
      assert MapSet(m, key, value)[1..] == MapSet(m[1..], key, value);
    }
  }

  /** Setting a key that is already present replaces its first entry in
      place: the entries before and after it are untouched. */
  lemma {:induction false} MapSetInPlace(m: EventMap, key: string, value: seq<TimelineEvent>, i: nat)
    requires i < |m| && m[i].0 == key
    requires forall j :: 0 <= j < i ==> m[j].0 != key
    ensures MapSet(m, key, value) == m[..i] + [(key, value)] + m[i + 1..]
    decreases i
  {
    if i > 0 {
      MapSetInPlace(m[1..], key, value, i - 1);
      assert m[1..][..i - 1] == m[1..i];
      assert m[1..][i..] == m[i + 1..];
      assert m[..i] == [m[0]] + m[1..i];
    }
  }

  /** The last file of the list with the given path, if any. */
  function LastWithPath(files: seq<VaultFile>, path: string): (r: Option<VaultFile>)
    ensures r.None? <==> forall j :: 0 <= j < |files| ==> files[j].path != path
    ensures r.Some? ==> r.value in files && r.value.path == path
    decreases |files|
  {
    if |files| == 0 then None
    else if files[|files| - 1].path == path then Some(files[|files| - 1])
    else LastWithPath(files[..|files| - 1], path)
  }

  /** The map `getTimelineEventInFile` builds has a key for every file's path
      and none other, and each key holds the events of the last file with
      that path. */
  lemma {:induction false} ExtractAllLookup(files: seq<VaultFile>, extract: EventExtractor, path: string)
    ensures Lookup(ExtractAll(files, extract), path)
            == if LastWithPath(files, path).Some? then Some(extract(LastWithPath(files, path).value)) else None
    decreases |files|
  {
    if |files| > 0 {
      var init := files[..|files| - 1];
      var last := files[|files| - 1];
      ExtractAllLookup(init, extract, path);
      MapSetLookup(ExtractAll(init, extract), last.path, extract(last), path);
    }
  }

  /** The map entry `getTimelineEventInFile` sets for one file. */
  function Entry(f: VaultFile, extract: EventExtractor): (string, seq<TimelineEvent>) {
    (f.path, extract(f))
  }

  /** One entry per file, in file order. */
  function Entries(files: seq<VaultFile>, extract: EventExtractor): EventMap {
    seq(|files|, i requires 0 <= i < |files| => Entry(files[i], extract))
  }

  /** The map `getTimelineEventInFile` builds: one `set` per file, in file
      order. Every entry is the entry of some file. */
  function ExtractAll(files: seq<VaultFile>, extract: EventExtractor): (m: EventMap)
    ensures forall i :: 0 <= i < |m| ==> m[i] in Entries(files, extract)
    decreases |files|
  {
    if |files| == 0 then []
    else
      var init := files[..|files| - 1];
      var last := files[|files| - 1];
      EntriesSnoc(files, extract);
      MapSet(ExtractAll(init, extract), last.path, extract(last))
  }

  /** When no two files share a path, the map holds exactly one entry per
      file, in file order. */
  lemma {:induction false} ExtractAllDistinct(files: seq<VaultFile>, extract: EventExtractor)
    requires DistinctPaths(files)
    ensures ExtractAll(files, extract) == Entries(files, extract)
    decreases |files|
  {
    if |files| > 0 {
      var init := files[..|files| - 1];
      var last := files[|files| - 1];
      assert DistinctPaths(init) by {
        forall i, j | 0 <= i < j < |init|
          ensures init[i].path != init[j].path
        {
          assert init[i] == files[i] && init[j] == files[j];
        }
      }
      ExtractAllDistinct(init, extract);
      var prev := ExtractAll(init, extract);
      forall i | 0 <= i < |prev|
        ensures prev[i].0 != last.path
      {
        assert prev[i] == Entry(init[i], extract);
        assert init[i] == files[i];
      }
      assert ExtractAll(files, extract) == MapSet(prev, last.path, extract(last));
      EntriesSnoc(files, extract);
    }
  }

  /** The entries of a non-empty file list are those of all but its last file,
      followed by the last file's entry. */
  lemma EntriesSnoc(files: seq<VaultFile>, extract: EventExtractor)
    requires |files| > 0
    ensures Entries(files, extract)
            == Entries(files[..|files| - 1], extract) + [Entry(files[|files| - 1], extract)]
  {
  }

  /** A filter keeps the paths of a file list distinct. */
  lemma {:induction false} FilterKeepsDistinctPaths(files: seq<VaultFile>, keep: VaultFile -> bool)
    requires DistinctPaths(files)
    ensures DistinctPaths(Filter(files, keep))
    decreases |files|
  {
    if |files| > 0 {
      var tail := files[1..];
      assert DistinctPaths(tail) by {
        forall i, j | 0 <= i < j < |tail|
          ensures tail[i].path != tail[j].path
        {
          assert tail[i] == files[i + 1] && tail[j] == files[j + 1];
        }
      }
      FilterKeepsDistinctPaths(tail, keep);
      if keep(files[0]) {
        var r := Filter(files, keep);
        forall j | 0 < j < |r|
          ensures files[0].path != r[j].path
        {
          assert r[j] in Filter(tail, keep);
          var k :| 0 <= k < |tail| && tail[k] == r[j];
          assert files[k + 1] == r[j];
        }
      }
    }
  }

  /** The query-range guard: both bounds parse and the start lies after the
      end. Equal bounds, or a bound that does not parse, never trip it. */
  predicate RangeRejected(p: SearchParams, parse: DateParser): (r: bool)
    ensures r ==> EventTime(p.dateStart, parse) > EventTime(p.dateEnd, parse)
    ensures !r && parse(p.dateStart).Some? && parse(p.dateEnd).Some?
            ==> EventTime(p.dateStart, parse) <= EventTime(p.dateEnd, parse)
  {
    var start := parse(p.dateStart);
    var end := parse(p.dateEnd);
    start.Some? && end.Some? && start.value > end.value
  }

  /** The event filter criteria a search passes on to every file. */
  function EventFilterParams(p: SearchParams): FilterParams {
    FilterParams(p.eventTags, p.dateStart, p.dateEnd)
  }

  /** Each entry's events narrowed by the event filter, in map order. */
  function FilterEach(m: EventMap, p: SearchParams, intersects: RangeIntersection): seq<seq<TimelineEvent>>
  {
    seq(|m|, i requires 0 <= i < |m| => FilterTimelineEvents(m[i].1, Some(EventFilterParams(p)), intersects))
  }

  /** The files whose document tags the tag filter accepts, in vault order. */
  function AcceptedFiles(files: seq<VaultFile>, accept: FileTagFilter, tags: Option<string>): seq<VaultFile> {
    Filter(files, f => accept(f, tags))
  }

  /** The events of the extracted map that survive the event filter, in map
      order; what the loop of `searchTimelineEvents` pushes. */
  function Collect(m: EventMap, p: SearchParams, intersects: RangeIntersection): seq<TimelineEvent> {
    Flatten(FilterEach(m, p, intersects))
  }

  /** `searchTimelineEvents` after the vault has been read. An inverted query
      range gives nothing; otherwise every result comes from a file the tag
      filter accepts and passes the event filter, and, with distinct paths,
      every such event of such a file is in the result. */
  function SearchTimelineEvents(
    files: seq<VaultFile>, accept: FileTagFilter, extract: EventExtractor,
    p: SearchParams, parse: DateParser, intersects: RangeIntersection): (r: seq<TimelineEvent>)
    ensures RangeRejected(p, parse) ==> r == []
    ensures forall e :: e in r ==>
              && Keep(EventFilterParams(p), intersects, e)
              && exists f :: f in files && accept(f, p.tags) && e in extract(f)
    ensures !RangeRejected(p, parse) && DistinctPaths(files) ==>
              forall f, e :: f in files && accept(f, p.tags) && e in extract(f) && Keep(EventFilterParams(p), intersects, e)
                             ==> e in r
  {
    var fileList := AcceptedFiles(files, accept, p.tags);
    var timelineEvents := ExtractAll(fileList, extract);
    if RangeRejected(p, parse) then []
    else
      CollectSound(files, accept, extract, p, intersects);
      CollectComplete(files, accept, extract, p, intersects);
      Collect(timelineEvents, p, intersects)
  }

  /** Every collected event passes the event filter and is an extracted event
      of an accepted file. */
  lemma {:induction false} CollectSound(files: seq<VaultFile>, accept: FileTagFilter, extract: EventExtractor,
                     p: SearchParams, intersects: RangeIntersection)
    ensures forall e :: e in Collect(ExtractAll(AcceptedFiles(files, accept, p.tags), extract), p, intersects) ==>
              && Keep(EventFilterParams(p), intersects, e)
              && exists f :: f in files && accept(f, p.tags) && e in extract(f)
  {
    var fileList := AcceptedFiles(files, accept, p.tags);
    var m := ExtractAll(fileList, extract);
    var perFile := FilterEach(m, p, intersects);
    forall e | e in Collect(m, p, intersects)
      ensures Keep(EventFilterParams(p), intersects, e)
      ensures exists f :: f in files && accept(f, p.tags) && e in extract(f)
    {
      var i :| 0 <= i < |perFile| && e in perFile[i];
      assert m[i] in Entries(fileList, extract);
      var j :| 0 <= j < |fileList| && Entries(fileList, extract)[j] == m[i];
      assert fileList[j] in fileList;
      assert e in extract(fileList[j]);
    }
  }

  /** With distinct paths, every extracted event of an accepted file that
      passes the event filter is collected. */
  lemma {:induction false} CollectComplete(files: seq<VaultFile>, accept: FileTagFilter, extract: EventExtractor,
                        p: SearchParams, intersects: RangeIntersection)
    ensures DistinctPaths(files) ==>
              forall f, e :: f in files && accept(f, p.tags) && e in extract(f) && Keep(EventFilterParams(p), intersects, e)
                             ==> e in Collect(ExtractAll(AcceptedFiles(files, accept, p.tags), extract), p, intersects)
  {
    if DistinctPaths(files) {
      var fileList := AcceptedFiles(files, accept, p.tags);
      FilterKeepsDistinctPaths(files, f => accept(f, p.tags));
      ExtractAllDistinct(fileList, extract);
      var m := ExtractAll(fileList, extract);
      var perFile := FilterEach(m, p, intersects);
      forall f, e | f in files && accept(f, p.tags) && e in extract(f) && Keep(EventFilterParams(p), intersects, e)
        ensures e in Collect(m, p, intersects)
      {
        assert f in fileList;
        var i :| 0 <= i < |fileList| && fileList[i] == f;
        assert e in perFile[i];
      }
    }
  }

  /** With distinct paths and an accepted query range, the result is the
      concatenation, in vault order, of each accepted file's filtered events. */
  lemma {:induction false} SearchIsConcatenation(
    files: seq<VaultFile>, accept: FileTagFilter, extract: EventExtractor,
    p: SearchParams, parse: DateParser, intersects: RangeIntersection)
    requires DistinctPaths(files) && !RangeRejected(p, parse)
    ensures var accepted := AcceptedFiles(files, accept, p.tags);
            SearchTimelineEvents(files, accept, extract, p, parse, intersects)
            == Flatten(seq(|accepted|, i requires 0 <= i < |accepted|
                             => FilterTimelineEvents(extract(accepted[i]), Some(EventFilterParams(p)), intersects)))
  {
    var accepted := AcceptedFiles(files, accept, p.tags);
    FilterKeepsDistinctPaths(files, f => accept(f, p.tags));
    ExtractAllDistinct(accepted, extract);
    FilterEachEntries(accepted, extract, p, intersects);
  }

  /** Filtering the one-entry-per-file map filters each file's events. */
  lemma FilterEachEntries(files: seq<VaultFile>, extract: EventExtractor, p: SearchParams, intersects: RangeIntersection)
    ensures FilterEach(Entries(files, extract), p, intersects)
            == seq(|files|, i requires 0 <= i < |files|
                     => FilterTimelineEvents(extract(files[i]), Some(EventFilterParams(p)), intersects))
  {
  }

  /** When the extractor yields records as `getTimelineEventInFile` builds
      them, every search result has a point id or none: the range branch of
      the id is never reached on this path. */
  lemma SearchYieldsPointIds(
    files: seq<VaultFile>, accept: FileTagFilter, extract: EventExtractor,
    p: SearchParams, parse: DateParser, intersects: RangeIntersection, e: TimelineEvent)
    requires forall f, x :: x in extract(f) ==> ParsedRecord(x) == x
    requires e in SearchTimelineEvents(files, accept, extract, p, parse, intersects)
    ensures EventId(Some(e), parse)
            == if StartTime(Some(e)).Some? then Some(PointId(EventTime(StartTime(Some(e)), parse))) else None
  {
    var f :| f in files && accept(f, p.tags) && e in extract(f);
    assert ParsedRecord(e) == e;
    ParsedRecordHasPointId(e, parse);
  }

  /** The guard never rejects equal bounds or a bound that does not parse. */
  lemma GuardIsStrict(p: SearchParams, parse: DateParser)
    ensures parse(p.dateStart) == parse(p.dateEnd) ==> !RangeRejected(p, parse)
    ensures parse(p.dateStart).None? || parse(p.dateEnd).None? ==> !RangeRejected(p, parse)
  {
  }
}

=== FILE: seqs.dfy ===
/** Order-preserving filtering and concatenation of sequences, the two array
    operations the filtering core is built from. */
module Seqs {

  /** Keeps the elements of `s` that satisfy `keep`, in their original order
      (JavaScript's `Array.prototype.filter`). */
  function Filter<T(!new)>(s: seq<T>, keep: T -> bool): (r: seq<T>)
    ensures |r| <= |s|
    ensures forall i :: 0 <= i < |r| ==> keep(r[i])
    ensures forall x :: x in r <==> x in s && keep(x)
    decreases |s|
  {
    if |s| == 0 then []
    else if keep(s[0]) then [s[0]] + Filter(s[1..], keep)
    else Filter(s[1..], keep)
  }

  /** `r` can be obtained from `s` by deleting elements: every element of `r`
      comes from `s`, in the same relative order, and is used at most once. */
  ghost predicate IsSubsequence<T>(r: seq<T>, s: seq<T>)
    decreases |s|
  {
    || |r| == 0
    || (&& |s| > 0
        && ((r[0] == s[0] && IsSubsequence(r[1..], s[1..])) || IsSubsequence(r, s[1..])))
  }

  /** Every sequence is a subsequence of itself. */
  lemma {:induction false} IsSubsequenceRefl<T>(s: seq<T>)
    ensures IsSubsequence(s, s)
    decreases |s|
  {
    if |s| > 0 {
      IsSubsequenceRefl(s[1..]);
    }
  }

  /** The result of a filter is a subsequence of its input. */
  lemma {:induction false} FilterIsSubsequence<T(!new)>(s: seq<T>, keep: T -> bool)
    ensures IsSubsequence(Filter(s, keep), s)
    decreases |s|
  {
    if |s| > 0 {
      FilterIsSubsequence(s[1..], keep);
      var r := Filter(s, keep);
      if keep(s[0]) {
        assert r[0] == s[0] && r[1..] == Filter(s[1..], keep);
      }
    }
  }

  /** No element is invented or duplicated: a kept value occurs exactly as
      often as in the input, a dropped one not at all. */
  lemma {:induction false} FilterMultiplicity<T(!new)>(s: seq<T>, keep: T -> bool)
    ensures forall x :: multiset(Filter(s, keep))[x] == if keep(x) then multiset(s)[x] else 0
    decreases |s|
  {
    if |s| > 0 {
      FilterMultiplicity(s[1..], keep);
      assert s == [s[0]] + s[1..];
      assert multiset(s) == multiset([s[0]]) + multiset(s[1..]);
      if keep(s[0]) {
        assert multiset(Filter(s, keep)) == multiset([s[0]]) + multiset(Filter(s[1..], keep));
      }
    }
  }

  /** Filters with pointwise-equal predicates agree. */
  lemma {:induction false} FilterExtensional<T(!new)>(s: seq<T>, f: T -> bool, g: T -> bool)
    requires forall x :: f(x) == g(x)
    ensures Filter(s, f) == Filter(s, g)
    decreases |s|
  {
    if |s| > 0 {
      FilterExtensional(s[1..], f, g);
    }
  }

  /** Two filters in sequence are one filter by the conjunction `both`. */
  lemma {:induction false} FilterCompose<T(!new)>(s: seq<T>, f: T -> bool, g: T -> bool, both: T -> bool)
    requires forall x :: both(x) == (f(x) && g(x))
    ensures Filter(Filter(s, f), g) == Filter(s, both)
    decreases |s|
  {
    if |s| > 0 {
      FilterCompose(s[1..], f, g, both);
      if f(s[0]) {
        var fs := Filter(s, f);
        assert fs[0] == s[0] && fs[1..] == Filter(s[1..], f);
      }
    }
  }

  /** Filtering twice by the same predicate is filtering once. */
  lemma {:induction false} FilterIdempotent<T(!new)>(s: seq<T>, keep: T -> bool)
    ensures Filter(Filter(s, keep), keep) == Filter(s, keep)
    decreases |s|
  {
    if |s| > 0 {
      FilterIdempotent(s[1..], keep);
      if keep(s[0]) {
        var fs := Filter(s, keep);
        assert fs[0] == s[0] && fs[1..] == Filter(s[1..], keep);
      }
    }
  }

  /** A filter that keeps every element returns its input. */
  lemma {:induction false} FilterKeepsAll<T(!new)>(s: seq<T>, keep: T -> bool)
    requires forall i :: 0 <= i < |s| ==> keep(s[i])
    ensures Filter(s, keep) == s
    decreases |s|
  {
    if |s| > 0 {
      FilterKeepsAll(s[1..], keep);
      assert s == [s[0]] + s[1..];
    }
  }

  /** Concatenation of a sequence of sequences, in order (spreading each one
      into an accumulator with `push(...xs)`). */
  function Flatten<T(!new)>(ss: seq<seq<T>>): (r: seq<T>)
    ensures |r| == SumOfLengths(ss)
    ensures forall x :: x in r <==> exists i :: 0 <= i < |ss| && x in ss[i]
    decreases |ss|
  {
    if |ss| == 0 then [] else ss[0] + Flatten(ss[1..])
  }

  /** Sum of the lengths of the parts. */
  function SumOfLengths<T>(ss: seq<seq<T>>): nat
    decreases |ss|
  {
    if |ss| == 0 then 0 else |ss[0]| + SumOfLengths(ss[1..])
  }
}

=== FILE: time_duration_value.dfy ===
/** Time durations: the seven units, their factors to seconds, conversion to
    minutes, and addition. Magnitudes are exact reals. */
module TimeDuration {
  import opened Wrappers

  /** The `TimeDurationUnit` enum. */
  datatype TimeDurationUnit = Second | Minute | Hour | Day | Week | Month | Year

  /** The string value of each enum member. */
  function UnitName(u: TimeDurationUnit): string {
    match u
    case Second => "sec"
    case Minute => "min"
    case Hour => "h"
    case Day => "d"
    case Week => "w"
    case Month => "mo"
    case Year => "yr"
  }

  /** `isTimeDurationUnit`: the string is one of the enum's values. */
  predicate IsTimeDurationUnit(unit: string): (r: bool)
    ensures r <==> exists u :: UnitName(u) == unit
  {
    assert UnitName(Second) == "sec" && UnitName(Minute) == "min" && UnitName(Hour) == "h"
           && UnitName(Day) == "d" && UnitName(Week) == "w" && UnitName(Month) == "mo" && UnitName(Year) == "yr";
    unit in ["sec", "min", "h", "d", "w", "mo", "yr"]
  }

  /** The enum member a unit string names, if any. */
  function ParseUnit(unit: string): (r: Option<TimeDurationUnit>)
    ensures r.Some? <==> IsTimeDurationUnit(unit)
    ensures r.Some? ==> UnitName(r.value) == unit
  {
    if unit == "sec" then Some(Second)
    else if unit == "min" then Some(Minute)
    else if unit == "h" then Some(Hour)
    else if unit == "d" then Some(Day)
    else if unit == "w" then Some(Week)
    else if unit == "mo" then Some(Month)
    else if unit == "yr" then Some(Year)
    else None
  }

  /** The unit strings are exactly the enum's values, one per member. */
  lemma UnitNameRoundTrip(u: TimeDurationUnit)
    ensures IsTimeDurationUnit(UnitName(u))
    ensures ParseUnit(UnitName(u)) == Some(u)
  {
  }

  /** A value of the `BaseValue` hierarchy: a time duration, or a value of
      another kind (a distance, say). Units are strings, as in the source,
      which casts rather than checks them. */
  datatype Value =
    | Duration(value: real, unit: string)
    | Other(value: real, unit: string)

  /** What the source throws. */
  datatype DurationError =
    | UnknownUnit(unit: string)
    | TypeMismatch(left: Value, right: Value)

  /** Seconds per unit, with a 30-day month and a 365-day year. */
  function SecondsPer(u: TimeDurationUnit): nat {
    match u
    case Second => 1
    case Minute => 60
    case Hour => 60 * 60
    case Day => 60 * 60 * 24
    case Week => 60 * 60 * 24 * 7
    case Month => 60 * 60 * 24 * 30
    case Year => 60 * 60 * 24 * 365
  }

  /** `getFactor`: seconds per unit for the seven unit strings, an error for
      any other string. */
  function GetFactor(unit: string): (r: Result<nat, DurationError>)
    ensures r.Success? <==> IsTimeDurationUnit(unit)
    ensures r.Success? ==> r.value == SecondsPer(ParseUnit(unit).value) && r.value >= 1
    ensures r.Failure? ==> r.error == UnknownUnit(unit)
  {
    match ParseUnit(unit)
    case Some(u) => Success(SecondsPer(u))
    case None => Failure(UnknownUnit(unit))
  }

  /** The factor table in seconds, strictly increasing. Each unit up to the
      week is a whole multiple of the one below it; month and year are whole
      numbers of days. */
  lemma FactorTable()
    ensures GetFactor("sec") == Success(1)
    ensures GetFactor("min") == Success(60)
    ensures GetFactor("h") == Success(3600)
    ensures GetFactor("d") == Success(86400)
    ensures GetFactor("w") == Success(604800)
    ensures GetFactor("mo") == Success(2592000)
    ensures GetFactor("yr") == Success(31536000)
    ensures GetFactor("min").value % GetFactor("sec").value == 0
    ensures GetFactor("h").value % GetFactor("min").value == 0
    ensures GetFactor("d").value % GetFactor("h").value == 0
    ensures GetFactor("w").value % GetFactor("d").value == 0
    ensures GetFactor("mo").value % GetFactor("d").value == 0
    ensures GetFactor("yr").value % GetFactor("d").value == 0
    ensures GetFactor("yr").value > GetFactor("mo").value > GetFactor("w").value > GetFactor("d").value
            > GetFactor("h").value > GetFactor("min").value > GetFactor("sec").value
  {
  }

  /** The length of a duration in seconds, when its unit is known. */
  function Seconds(v: Value): (s: real)
    requires v.Duration? && IsTimeDurationUnit(v.unit)
  {
    v.value * GetFactor(v.unit).value as real
  }

  /** `toMinTimeDurationValue`: the same length expressed in minutes. A value
      already in minutes comes back unchanged; an unknown unit is an error. */
  function ToMinutes(v: Value): (r: Result<Value, DurationError>)
    requires v.Duration?
    ensures r.Success? <==> IsTimeDurationUnit(v.unit)
    ensures r.Failure? ==> r.error == UnknownUnit(v.unit)
    ensures r.Success? ==> r.value.Duration? && r.value.unit == "min" && r.value.value * 60.0 == Seconds(v)
    ensures v.unit == "min" ==> r == Success(v)
  {
    match GetFactor(v.unit)
    case Failure(e) => Failure(e)
    case Success(factor) =>
      var minToSecond := GetFactor(UnitName(Minute)).value;
      var minutes := v.value * factor as real / minToSecond as real;
      assert v.unit == "min" ==> minutes == v.value by {
        if v.unit == "min" {
          assert factor == 60 && minToSecond == 60;
          assert factor as real == 60.0 && minToSecond as real == 60.0;
        }
      }
      assert v == Duration(v.value, v.unit);
      Success(Duration(minutes, UnitName(Minute)))
  }

  /** `TimeDurationValue.add`. A zero argument returns the receiver as is,
      whatever the argument's kind; a non-zero argument of another kind is a
      type mismatch; two durations add up in minutes. */
  function Add(receiver: Value, arg: Value): (r: Result<Value, DurationError>)
    requires receiver.Duration?
    ensures arg.value == 0.0 ==> r == Success(receiver)
    ensures arg.value != 0.0 && arg.Other? ==> r == Failure(TypeMismatch(receiver, arg))
    ensures arg.value != 0.0 && arg.Duration? ==>
              (r.Success? <==> IsTimeDurationUnit(receiver.unit) && IsTimeDurationUnit(arg.unit))
    ensures arg.value != 0.0 && r.Success? ==>
              && r.value.Duration? && r.value.unit == "min"
              && r.value.value * 60.0 == Seconds(receiver) + Seconds(arg)
  {
    if arg.value == 0.0 then Success(receiver)
    else if arg.Duration? then
      match ToMinutes(receiver)
      case Failure(e) => Failure(e)
      case Success(mine) =>
        match ToMinutes(arg)
        case Failure(e) => Failure(e)
        case Success(theirs) => Success(Duration(mine.value + theirs.value, UnitName(Minute)))
    else Failure(TypeMismatch(receiver, arg))
  }

  /** Adding two non-zero durations gives the same minutes in either order. */
  lemma AddCommutesInMagnitude(a: Value, b: Value)
    requires a.Duration? && b.Duration? && a.value != 0.0 && b.value != 0.0
    ensures Add(a, b).Success? <==> Add(b, a).Success?
    ensures Add(a, b).Success? ==> Add(a, b) == Add(b, a)
  {
  }

  /** Only the argument is checked for zero: a zero receiver still goes
      through the conversion, so the sum comes back in minutes rather than as
      the argument. */
  lemma ZeroReceiverIsNotShortCut()
    ensures Add(Duration(0.0, "h"), Duration(2.0, "h")) == Success(Duration(120.0, "min"))
  {
  }

  /** Five minutes plus thirty seconds is 330 seconds, given in minutes. */
  lemma AddExample()
    ensures Add(Duration(5.0, "min"), Duration(30.0, "sec")) == Success(Duration(5.5, "min"))
  {
  }

  /** A zero value of another kind is absorbed, while a non-zero one is
      refused. */
  lemma ZeroOfOtherKindIsAbsorbed()
    ensures Add(Duration(5.0, "min"), Other(0.0, "km")) == Success(Duration(5.0, "min"))
    ensures Add(Duration(5.0, "min"), Other(3.0, "km")).Failure?
  {
  }
}

=== FILE: timeline_event.dfy ===
/** The timeline event record and its field accessors: id, start and end
    time, sort key, date description, and the strict boolean parser used for
    the `milestone` attribute. */
module Events {
  import opened Wrappers
  import opened JsString

  /** `parseTimelineDate`: turns an optional date text into a number, or into
      nothing when it cannot. Its definition is not part of this model, so
      every accessor that needs it takes it as a parameter. */
  type DateParser = Option<string> -> Option<int>

  /** A timeline event as the filter sees it. `eventTags` is the list of the
      event's tags; `name`, `title` and `milestone` are carried but never
      inspected by the filtering core. */
  datatype TimelineEvent = TimelineEvent(
    name: string,
    title: Option<string>,
    date: Option<string>,
    dateStart: Option<string>,
    dateEnd: Option<string>,
    dateDescription: Option<string>,
    eventTags: Option<seq<string>>,
    milestone: Option<bool>)

  /** `getTimelineEventTime`: the parsed date, with every failure (absent,
      unparsable) and a parsed zero both read as 0. */
  function EventTime(s: Option<string>, parse: DateParser): (t: int)
    ensures t != 0 ==> parse(s) == Some(t)
    ensures parse(s).Some? ==> t == parse(s).value
    ensures parse(s).None? ==> t == 0
  {
    match parse(s)
    case Some(v) => v
    case None => 0
  }

  /** The id of a dated event: its time as a decimal string. */
  function PointId(t: int): string {
    NumberToString(t)
  }

  /** The id of a ranged event: start and end time joined by a hyphen. */
  function RangeId(start: int, end: int): string {
    NumberToString(start) + "-" + NumberToString(end)
  }

  /** `getTimelineEventId`. A non-empty `date` wins and gives a point id;
      otherwise both bounds give a range id, `dateStart` alone gives a point
      id, and anything else (or no event at all) gives no id. */
  function EventId(dataset: Option<TimelineEvent>, parse: DateParser): (r: Option<string>)
    ensures r.None? <==> dataset.None? || (!Truthy(dataset.value.date) && !Truthy(dataset.value.dateStart))
    ensures dataset.Some? && Truthy(dataset.value.date)
            ==> r == Some(PointId(EventTime(dataset.value.date, parse)))
    ensures dataset.Some? && !Truthy(dataset.value.date) && Truthy(dataset.value.dateStart) && Truthy(dataset.value.dateEnd)
            ==> r == Some(RangeId(EventTime(dataset.value.dateStart, parse), EventTime(dataset.value.dateEnd, parse)))
    ensures dataset.Some? && !Truthy(dataset.value.date) && Truthy(dataset.value.dateStart) && !Truthy(dataset.value.dateEnd)
            ==> r == Some(PointId(EventTime(dataset.value.dateStart, parse)))
  {
    match dataset
    case None => None
    case Some(e) =>
      if Truthy(e.date) then Some(PointId(EventTime(e.date, parse)))
      else if Truthy(e.dateStart) && Truthy(e.dateEnd) then
        Some(RangeId(EventTime(e.dateStart, parse), EventTime(e.dateEnd, parse)))
      else if Truthy(e.dateStart) then Some(PointId(EventTime(e.dateStart, parse)))
      else None
  }

  /** The times an id is made of: one for a point id, two for a range id. */
  ghost function IdTimes(e: TimelineEvent, parse: DateParser): seq<int>
  {
    if Truthy(e.date) then [EventTime(e.date, parse)]
    else if Truthy(e.dateStart) && Truthy(e.dateEnd) then
      [EventTime(e.dateStart, parse), EventTime(e.dateEnd, parse)]
    else [EventTime(e.dateStart, parse)]
  }

  /** Every character after the first of a rendered number is a digit. */
  lemma NoHyphenAfterSign(t: int, i: int)
    requires 1 <= i < |NumberToString(t)|
    ensures NumberToString(t)[i] != '-'
  {
  }

  /** A point id never equals a range id. */
  lemma PointIdIsNotRangeId(t: int, start: int, end: int)
    ensures PointId(t) != RangeId(start, end)
  {
    var s := NumberToString(start);
    var rid := RangeId(start, end);
    assert rid[|s|] == '-';
    if PointId(t) == rid {
      NoHyphenAfterSign(t, |s|);
    }
  }

  /** Range ids are injective: the hyphen that joins the two times is the
      first hyphen after the leading character. */
  lemma RangeIdInjective(a: int, b: int, c: int, d: int)
    requires RangeId(a, b) == RangeId(c, d)
    ensures a == c && b == d
  {
    var sa, sc := NumberToString(a), NumberToString(c);
    var r := RangeId(a, b);
    assert r[|sa|] == '-' && r[|sc|] == '-';
    if |sa| < |sc| {
      NoHyphenAfterSign(c, |sa|);
      assert false;
    } else if |sc| < |sa| {
      NoHyphenAfterSign(a, |sc|);
      assert false;
    }
    assert sa == r[..|sa|] == sc;
    assert NumberToString(b) == r[|sa| + 1..] == NumberToString(d);
    NumberToStringInjective(a, c);
    NumberToStringInjective(b, d);
  }

  /** Two events with the same id have an id of the same kind made of the
      same times. */
  lemma EventIdDeterminesTimes(a: TimelineEvent, b: TimelineEvent, parse: DateParser)
    requires EventId(Some(a), parse).Some?
    requires EventId(Some(a), parse) == EventId(Some(b), parse)
    ensures IdTimes(a, parse) == IdTimes(b, parse)
  {
    var ta, tb := IdTimes(a, parse), IdTimes(b, parse);
    if |ta| == 1 && |tb| == 1 {
      NumberToStringInjective(ta[0], tb[0]);
    } else if |ta| == 2 && |tb| == 2 {
      RangeIdInjective(ta[0], ta[1], tb[0], tb[1]);
    } else if |ta| == 1 {
      PointIdIsNotRangeId(ta[0], tb[0], tb[1]);
    } else {
      PointIdIsNotRangeId(tb[0], ta[0], ta[1]);
    }
  }

  /** `getTimelineEventDateDescription`: a non-empty `dateDescription`, else
      the event id. */
  function DateDescription(dataset: Option<TimelineEvent>, parse: DateParser): (r: Option<string>)
    ensures r.Some? ==> r.value != ""
    ensures dataset.Some? && Truthy(dataset.value.dateDescription) ==> r == dataset.value.dateDescription
    ensures dataset.None? || !Truthy(dataset.value.dateDescription) ==> r == EventId(dataset, parse)
    ensures r.None? <==> dataset.None? || (!Truthy(dataset.value.dateDescription)
                                            && !Truthy(dataset.value.date)
                                            && !Truthy(dataset.value.dateStart))
  {
    match dataset
    case Some(e) => if Truthy(e.dateDescription) then e.dateDescription else EventId(dataset, parse)
    case None => EventId(dataset, parse)
  }

  /** `getTimelineEventStartTime`: `date` if non-empty, else `dateStart` if
      non-empty, else nothing; never an empty string. */
  function StartTime(dataset: Option<TimelineEvent>): (r: Option<string>)
    ensures r.Some? ==> r.value != ""
    ensures r.None? <==> dataset.None? || (!Truthy(dataset.value.date) && !Truthy(dataset.value.dateStart))
    ensures dataset.Some? && Truthy(dataset.value.date) ==> r == dataset.value.date
    ensures dataset.Some? && !Truthy(dataset.value.date) ==> r.Some? ==> r == dataset.value.dateStart
  {
    match dataset
    case None => None
    case Some(e) =>
      if Truthy(e.date) then e.date
      else if Truthy(e.dateStart) then e.dateStart
      else None
  }

  /** An event has a start time exactly when it has an id. Outside the range
      case the id is the start time's parsed value in decimal. */
  lemma StartTimeMatchesId(dataset: Option<TimelineEvent>, parse: DateParser)
    ensures StartTime(dataset).Some? <==> EventId(dataset, parse).Some?
    ensures StartTime(dataset).Some?
            && (Truthy(dataset.value.date) || !Truthy(dataset.value.dateEnd))
            ==> EventId(dataset, parse) == Some(PointId(EventTime(StartTime(dataset), parse)))
  {
  }

  /** The record `getTimelineEventInFile` builds from a document's attributes:
      an empty `date` is replaced by `dateStart`, and an empty `name` becomes
      `"unknown"`. The start time is unchanged, and afterwards `date` is
      non-empty exactly when there is a start time. Every other field is
      kept. */
  function ParsedRecord(e: TimelineEvent): (r: TimelineEvent)
    ensures StartTime(Some(r)) == StartTime(Some(e))
    ensures Truthy(r.date) <==> StartTime(Some(e)).Some?
    ensures !Truthy(e.date) ==> r.date == e.dateStart
    ensures r.name != ""
    ensures e.name != "" ==> r.name == e.name
    ensures e.name == "" ==> r.name == "unknown"
    ensures r.(date := e.date, name := e.name) == e
  {
    e.(date := if Truthy(e.date) then e.date else e.dateStart,
       name := if e.name == "" then "unknown" else e.name)
  }

  /** Building the record twice changes nothing more. */
  lemma ParsedRecordIdempotent(e: TimelineEvent)
    ensures ParsedRecord(ParsedRecord(e)) == ParsedRecord(e)
  {
  }

  /** A built record never takes the range branch of the id: its id is the
      start time's parsed value in decimal, or absent without a start time. */
  lemma ParsedRecordHasPointId(e: TimelineEvent, parse: DateParser)
    ensures EventId(Some(ParsedRecord(e)), parse)
            == if StartTime(Some(e)).Some? then Some(PointId(EventTime(StartTime(Some(e)), parse))) else None
  {
  }

  /** `getTimelineEventEndTime`: a non-empty `dateEnd`, else nothing. There is
      no fallback to the start time, so a point event has an open end. */
  function EndTime(dataset: Option<TimelineEvent>): (r: Option<string>)
    ensures r.Some? ==> dataset.Some? && r == dataset.value.dateEnd && r.value != ""
    ensures r.None? <==> dataset.None? || !Truthy(dataset.value.dateEnd)
  {
    match dataset
    case None => None
    case Some(e) => if Truthy(e.dateEnd) then e.dateEnd else None
  }

  /** The end time depends on `dateEnd` alone: changing `date` or `dateStart`
      never changes it. */
  lemma EndTimeIgnoresStart(e: TimelineEvent, date: Option<string>, dateStart: Option<string>)
    ensures EndTime(Some(e.(date := date, dateStart := dateStart))) == EndTime(Some(e))
  {
  }

  /** `getTimelineSortOrder`: -1 without an event; otherwise the time of
      `date`, or that of `dateStart` when the former is 0. */
  function SortOrder(dataset: Option<TimelineEvent>, parse: DateParser): (r: int)
    ensures dataset.None? ==> r == -1
    ensures dataset.Some? && r != 0
            ==> parse(dataset.value.date) == Some(r)
                || (EventTime(dataset.value.date, parse) == 0 && parse(dataset.value.dateStart) == Some(r))
    ensures dataset.Some? && EventTime(dataset.value.date, parse) != 0 ==> r == EventTime(dataset.value.date, parse)
    ensures dataset.Some? && EventTime(dataset.value.date, parse) == 0 ==> r == EventTime(dataset.value.dateStart, parse)
  {
    match dataset
    case None => -1
    case Some(e) =>
      var t := EventTime(e.date, parse);
      if t != 0 then t else EventTime(e.dateStart, parse)
  }

  /** For an event with a non-empty `date` whose time is not 0, the id is the
      sort key written in decimal. */
  lemma SortOrderMatchesId(e: TimelineEvent, parse: DateParser)
    requires Truthy(e.date) && EventTime(e.date, parse) != 0
    ensures EventId(Some(e), parse) == Some(NumberToString(SortOrder(Some(e), parse)))
  {
  }

  /** With a non-empty `date` of non-zero time, the sort key is the time of
      the start time. */
  lemma SortOrderAgreesWithStartTime(e: TimelineEvent, parse: DateParser)
    requires Truthy(e.date) && EventTime(e.date, parse) != 0
    ensures SortOrder(Some(e), parse) == EventTime(StartTime(Some(e)), parse)
  {
  }

  /** A non-empty `date` that does not parse is still the start time, yet the
      sort key falls back to the time of `dateStart`. */
  lemma SortOrderCanDivergeFromStartTime(e: TimelineEvent, parse: DateParser)
    requires Truthy(e.date) && parse(e.date).None?
    ensures StartTime(Some(e)) == e.date
    ensures SortOrder(Some(e), parse) == EventTime(e.dateStart, parse)
  {
  }

  /** `parseBoolean`: nothing for an absent or empty string, otherwise true
      exactly for the string "true". */
  function ParseBoolean(value: Option<string>): (r: Option<bool>)
    ensures r.Some? <==> Truthy(value)
    ensures r == Some(true) <==> value == Some("true")
  {
    if Truthy(value) then Some(value.value == "true") else None
  }

  /** Parsing the text of a boolean gives that boolean back. */
  lemma ParseBooleanRoundTrip(b: bool)
    ensures ParseBoolean(Some(if b then "true" else "false")) == Some(b)
  {
  }
}

=== FILE: wrappers.dfy ===
/** Optional values and error-carrying results, standing in for JavaScript's
    `undefined`/`null` and for thrown exceptions. */
module Wrappers {

  /** A value that may be absent (`undefined` or `null` in the source). */
  datatype Option<+T> = None | Some(value: T)

  /** The outcome of an operation that may throw: `Failure` carries the error. */
  datatype Result<+R, +E> = Success(value: R) | Failure(error: E)
}
